=== FILE: README.md ===
# Charm metadata: action schemas and resource descriptors

A Dafny model of the metadata validation logic of the charm library. It covers two source files.

- **actions.go**
  - `cleanse`, the canonicaliser for decoded YAML trees. It makes every mapping string-keyed and rejects the reserved schema keys `$ref` and `$schema`.
  - `recurseMapOnKeys`, the nested-path accessor.
  - `actionNameRule`, the rule for action names.
  - The per-action loop of `ReadActionsYaml`, which builds a JSON-Schema (draft 4) document for each declared action. It is all or nothing: one bad action fails the whole collection.
  - How `ActionSpec.ValidateParams` decides its result and builds its error message.
- **resource/meta.go**
  - The resource descriptor `Meta`.
  - `ParseMeta`, which fills a descriptor from decoded metadata.
  - `Meta.Validate`, an ordered chain of checks that reports the first one that fails.

## Layout

| file | module | what it holds |
|---|---|---|
| `tree.dfy` | `Tree` | The decoded tree `Value`: nil, string, opaque scalar, list, string-keyed map, any-keyed map. Also Go's map lookup `Get`. |
| `cleanse.dfy` | `Cleansing` | `Cleanse`, and `Canonical` as its reference definition. Also `Cleansable`, which characterises success. |
| `keypaths.dfy` | `KeyPaths` | `RecurseMapOnKeys` and its laws. |
| `action_names.dfy` | `ActionNames` | The name rule as a plain predicate, proved equal to the regular expression. |
| `action_schemas.dfy` | `ActionSchemas` | The imperative builder `ReadActions`: nested loops, a local map, early returns. It is proved equal to the fold `BuildActions`, and the properties of the build are proved about that fold. |
| `param_validation.dfy` | `ParamValidation` | `ValidateParams`, with its error-collecting loop, and Go's `strings.Join`. |
| `meta.dfy` | `ResourceMeta` | `Meta`, `ParseMeta` and `Validate`. |

Modelling choices:

- **Maps as ordered lists.** Go maps are association lists here, in the order the decoder gives them. Go iterates maps in random order, and the model fixes one order.
  - Whether `cleanse` succeeds, and whether an action's entries are all acceptable, do not depend on the order (`Cleansing.CleanseCorrect`, `ActionSchemas.ApplyEntriesSpec`). Whether the collection builds, given the outcome of each action, does not depend on the order either (`ActionSchemas.BuildActionsOk`).
  - The order decides which error is reported when several entries fail (`ActionSchemas.EntriesFailAt` names it among the entries of one action, `ActionSchemas.BuildActionsFirstError` among the actions, for the fixed order).
  - The order decides which write wins when `params` and an explicit `properties` entry both target `properties` (`ActionSchemas.LastEntryWins`). The self-check runs on the schema that results, so the order can also decide whether the action builds at all (`ActionSchemas.ParamsPropertiesOrderDecides`; see Findings).
  - When no two entries share a schema key, neither whether an action builds nor what it builds depends on the order (`ActionSchemas.BuildActionOrderFree`).
- **Lookup in a list with duplicate keys.** A Go map never holds a key twice. The lists could, so lookup takes the first binding.
- **External code as parameters.** Code outside the two files is passed in as function-typed parameters:
  - the JSON-Schema library's self-check (`selfCheck`), its compilation step (`compile`) and its validation step (`validate`);
  - `ParseType` (`parseType`) and `Type.Validate` (`typeCheck`).

## Model

| member | source | states |
|---|---|---|
| `Tree.Get` | actions.go:211 | Looking up a key that is not bound gives nil. A bound key gives a value the map binds to it. |
| `Cleansing.Canonical` | actions.go:154-155 | Reference canonical form. The result holds no any-keyed map anywhere. |
| `Cleansing.CoerceKeys` | actions.go:178-185 | The key coercion fails exactly when some key is not a string. Otherwise it keeps every binding, in order, with its key as a string. |
| `Cleansing.Cleanse` | actions.go:156-204 | The result is string-keyed throughout. Every failure is on a tree that is not cleansable. A rejected key is one of the reserved keys and is a key of some map in the input whose keys are all strings, since an any-keyed map with a non-string key fails on coercion before any reserved-key check. "map keyed with non-string value" is reported only when some any-keyed map has a non-string key or some list has an element `cleanse` rejects, so a reserved key outside lists gets the reserved-key error. An any-keyed map with a non-string key always fails with "map keyed with non-string value". A list keeps its length. A map becomes a string-keyed map. Any other value passes through unchanged. |
| `Cleansing.CleanseEntries` | actions.go:160-174 | The loop over a string-keyed map keeps every key, in order, and string-keys every value. A rejected key is a reserved one that occurs among the entries or below them, in a map whose keys are all strings. The non-string error is reported only when a non-string key or a rejected list element lies below. |
| `Cleansing.CleanseItems` | actions.go:189-198 | The loop over a list keeps its length. Every element is string-keyed. Any failure is reported as "map keyed with non-string value", and only when some element is not cleansable. |
| `Cleansing.CleanseCorrect` | actions.go:156-204 | `cleanse` succeeds if and only if no map anywhere has a non-string key or a reserved key. On success it returns exactly the canonical form. |
| `Cleansing.CleanseEntriesCorrect` | actions.go:160-174 | The same characterisation, for the loop over a string-keyed map. |
| `Cleansing.CleanseItemsCorrect` | actions.go:189-198 | The same characterisation, for the loop over a list. |
| `Cleansing.CanonicalOfStringKeyed` | actions.go:160-174 | A tree that is already string-keyed is its own canonical form. |
| `Cleansing.CanonicalKeepsCleansable` | actions.go:176-186 | Coercion keeps every key, so a tree `cleanse` accepts stays acceptable after canonicalisation. |
| `Cleansing.CleanseOfCanonicalTree` | actions.go:160-174 | A string-keyed tree without reserved keys comes back equal to itself. |
| `Cleansing.CleanseIdempotent` | actions.go:156-204 | Cleansing a cleansed tree returns it unchanged. |
| `Cleansing.CleanseList` | actions.go:189-198 | On a list, `cleanse` succeeds if and only if every element does. Each output element is that element's cleansed form, in order. A failing element fails the list with "map keyed with non-string value". |
| `Cleansing.CoercedReservedKeyRejected` | actions.go:177-186 | Keys are coerced before the reserved-key check, so an any-keyed map with a coerced `$ref` or `$schema` is rejected. |
| `Cleansing.CoercionFailsBeforeReservedKey` | actions.go:176-186 | Example: a nested any-keyed map holding `$ref` and a non-string key is reported as "map keyed with non-string value", in either order of its bindings, because coercion fails before any reserved-key check. |
| `Cleansing.ReservedKeyInListMessage` | actions.go:189-198 | Example: a `$ref` inside a list element is reported as "map keyed with non-string value". The same map outside a list is reported as a reserved key. |
| `KeyPaths.Descend` | actions.go:224-247 | A found value can be walked into exactly when it is a string-keyed map, or an any-keyed map whose keys are all strings. |
| `KeyPaths.RecurseMapOnKeys` | actions.go:209-248 | With one key, the result is the pair of the map's value and whether the key is bound. With more keys, an absent key or a value that cannot be walked into gives `(nil, false)`. A negative answer always carries nil. |
| `KeyPaths.RecurseMapOnKeysAppend` | actions.go:209-248 | Following the path `k1 + k2` is following `k1`, then `k2` from the map found there. A miss or a non-map value on the way gives `(nil, false)`. |
| `KeyPaths.DescendCanonical` | actions.go:224-247 | Walking into a cleansable map and then cleansing gives the same bindings as cleansing and then walking in. |
| `KeyPaths.RecurseMapOnKeysCanonical` | actions.go:209-248 | Looking a path up in cleansed parameters gives the cleansed form of what the same path finds in the original parameters, with the same found flag. |
| `KeyPaths.RecurseMapOnKeysExamples` | actions.go:206-208 | The documented lookup `{a,b}` in `{a:{b:{c:d}}}` gives `{c:d}`. A missing key and a non-map intermediate value each give `(nil, false)`. |
| `ActionNames.ValidActionNameMatchesRule` | actions.go:20 | A name is non-empty, starts and ends with `a`–`z` and holds only `a`–`z` and `-` if and only if it matches `^[a-z](?:[a-z-]*[a-z])?$`. |
| `ActionNames.ActionNameExamples` | actions.go:79-81 | `snapshot`, `a` and `take-snapshot` are accepted. `Snapshot`, `-snap`, `snap-` and the empty name are rejected. |
| `ActionSchemas.EntryWriteSpec` | actions.go:91-135 | An entry is written exactly when it is acceptable: a string `description` or `title`, a list `required`, a cleansable map `params`, or any other cleansable value. `params` is written to `properties`. The fixed keys are written verbatim and the others in cleansed form. Each rejection carries its own error: "must be a string" names a `description` or `title` entry whose value is not a string; "must be a YAML list" names a `required` entry whose value is not a list; "params failed to parse as a map" is a cleansable `params` that is not a map; a cleanse failure is never reported for the three fixed keys, and when it is reported it carries `cleanse`'s own error unchanged. |
| `ActionSchemas.ReadActions` | actions.go:78-151 | The nested loops return exactly what the fold `BuildActions` returns, including which error an early return reports. |
| `ActionSchemas.EntriesFailAt` | actions.go:91-136 | An entry that fails after successful ones fails its action with that entry's own error. |
| `ActionSchemas.ActionsFailAt` | actions.go:78-150 | An action that fails after successful ones fails the whole collection with that action's error. |
| `ActionSchemas.FinalSchemaLastWins` | actions.go:84-134 | Each key of the built schema holds what the last entry writing it wrote, or the scaffold default if no entry writes it. No other key is present. |
| `ActionSchemas.LastWriterWins` | actions.go:91-135 | An entry that no later entry overrides decides its schema key. |
| `ActionSchemas.NoWriter` | actions.go:84-89 | A key that no entry writes has no last write, so it keeps its default. |
| `ActionSchemas.FixedKeysStayStrings` | actions.go:93-107 | Among accepted entries, whatever is written to `description` or `title` is a string. |
| `ActionSchemas.ApplyEntriesSpec` | actions.go:83-136 | The entries apply without error if and only if each is acceptable, whatever their order. The result is then the final schema and the final description. |
| `ActionSchemas.BuildActionSpec` | actions.go:78-149 | An action builds if and only if its name is valid, every entry is acceptable and the self-check accepts the schema. It then records the final description and schema. A bad name fails with "bad action name". When the name is valid and every entry is acceptable but the self-check rejects the schema, the error is the self-check's cause annotated with the action name. |
| `ActionSchemas.BuiltActionKeys` | actions.go:84-135 | A built schema holds exactly the four scaffold keys plus the keys the entries write. |
| `ActionSchemas.SchemaFixedFields` | actions.go:83-107 | With acceptable entries, the schema's `description` is the recorded description and its `title` is a string. |
| `ActionSchemas.SchemaKeepsDefault` | actions.go:83-89 | A scaffold key no entry writes keeps its default. An unwritten description stays "No description". |
| `ActionSchemas.BuiltActionDefaults` | actions.go:83-149 | In a built action, `Description` equals the schema's `description` and the title is a string. `type` stays "object", `title` stays the action name, `description` stays "No description" and `properties` stays `{}`, each unless an entry sets it. |
| `ActionSchemas.LastEntryWins` | actions.go:99-134 | For the entry that is not overridden: `properties` holds the cleansed `params`. `required`, `title` and `description` are stored verbatim, and the description is recorded. Any other key holds its cleansed value. |
| `ActionSchemas.BuildActionsOk` | actions.go:78-151 | The collection builds if and only if every action builds, whatever the order. |
| `ActionSchemas.BuildActionsKeys` | actions.go:146-151 | A built collection holds exactly the declared action names. |
| `ActionSchemas.BuildActionsValues` | actions.go:146-149 | A built collection maps each name to the action built from its last declaration. |
| `ActionSchemas.BuildActionsFirstError` | actions.go:78-151 | A failed build reports the error of the first failing action, and every earlier action builds. |
| `ActionSchemas.WrittenIsClean` | actions.go:114-134 | Among acceptable entries, whatever is written to a key other than `required` is string-keyed and holds no reserved key. |
| `ActionSchemas.BuiltSchemaIsClean` | actions.go:83-149 | Every value of a built schema except `required` is string-keyed and holds no reserved key at any depth. |
| `ActionSchemas.ReservedEntryKeyKept` | actions.go:128-134 | Only entry values are cleansed, not entry keys: a top-level `$ref` entry is stored in the built schema. |
| `ActionSchemas.RequiredKeptVerbatim` | actions.go:108-113 | `required` is stored verbatim: an any-keyed map inside it stays in the built schema. |
| `ActionSchemas.ParamsPropertiesOrderDecides` | actions.go:114-142 | `params: {}` together with `properties: "x"` builds in one entry order and fails in the other, under a self-check that wants `properties` to be an object. |
| `ActionSchemas.UniqueWriter` | actions.go:91-135 | When no two entries share a schema key, the one entry writing a key decides it, wherever it stands. |
| `ActionSchemas.LastWriteOrderFree` | actions.go:91-135 | When no two entries share a schema key, what a key ends up holding depends only on which entries are present. |
| `ActionSchemas.BuildActionOrderFree` | actions.go:78-149 | When no two entries share a schema key, any reordering of the entries gives the same answer to whether the action builds, and the same action. |
| `ActionSchemas.BuildActionStrictOrderFree` | actions.go:114-142 | The corrected builder, which rejects entries sharing a schema key, gives for every reordering the same answer to whether the action builds and the same action. When it builds, it agrees with the builder as written. |
| `ActionSchemas.SnapshotExample` | actions.go:83-149 | The `snapshot` action, with a description and string-typed `outfile` params, builds into the expected schema. |
| `ParamValidation.JoinHoldsPart` | actions.go:59 | Each validation message appears unchanged in the joined text, at its offset. |
| `ParamValidation.JoinHoldsSeparator` | actions.go:59 | Exactly `"; "` stands between each two neighbouring messages. |
| `ParamValidation.JoinLength` | actions.go:59 | The joined text ends right after the last message, so the messages appear in order and none is dropped. |
| `ParamValidation.ValidateParams` | actions.go:43-60 | The result is `(true, nil)` exactly when the schema compiles and the parameters are valid. A compile error is returned unchanged. Otherwise the error is "JSON validation failed: " followed by every message joined with "; ". |
| `ResourceMeta.ParseMeta` | resource/meta.go:38-60 | The name is always the argument. Nil data gives zero values for the other fields. `type`, `filename` and `comment` are copied when present, and absent or nil keys leave zero values. |
| `ResourceMeta.ParseMetaRoundTrip` | resource/meta.go:38-60 | Parsing the metadata map of a descriptor gives that descriptor back, provided the type parser reads back the type names. |
| `ResourceMeta.Validate` | resource/meta.go:63-89 | No error if and only if all invariants hold. Otherwise the error names the first failing check, and every earlier check passes. An empty name is always "resource missing name". With a name, an unknown type is "resource missing type". "resource missing filename" is reported exactly when name and type are valid and the path is empty. The invalid-type error carries the descriptor's type and the type check's own error. The slash error carries the descriptor's path. |
| `ResourceMeta.ValidMetaIsAllChecks` | resource/meta.go:63-88 | The invariant is the conjunction of the five ordered checks: name, type, type validity, path, slash. |
| `ResourceMeta.ParseMetaNilInvalid` | resource/meta.go:38-44 | A descriptor parsed from nil data never validates. It lacks a name or a type. |
| `ResourceMeta.ValidateExamples` | resource/meta.go:80-84 | A file resource `eggs` with path `a/b` fails on the slash, and with `eggs.tgz` it is valid. An empty name fails first. |

`Validate` is a function of the descriptor's value, as the source's value receiver is. So it changes nothing, and repeated calls agree.

The source comment on `cleanse` (actions.go:154-155) says it rejects references. The code does reject them, but a reserved key nested inside a list element is reported with the list's fixed message "map keyed with non-string value", not the reserved-key message (actions.go:192-195). The model follows the code (`Cleansing.CleanseItems`, `Cleansing.ReservedKeyInListMessage`).

A built schema is not clean throughout. Every value except `required` is string-keyed and free of reserved keys (`ActionSchemas.BuiltSchemaIsClean`). But the builder cleanses entry values and never entry keys, so a top-level `$ref` or `$schema` entry is stored (`ActionSchemas.ReservedEntryKeyKept`). And `required` is stored as given, any-keyed maps included (`ActionSchemas.RequiredKeptVerbatim`). The model records both as the code behaves.

## Left out

- Reading the file and decoding the YAML (actions.go:63-76). `ReadActions` takes the decoded document.
- The JSON-Schema library (actions.go:45, actions.go:50, actions.go:140). Its compilation, self-check and validation are parameters, so the model makes no claim about what a valid draft-4 schema is.
- `ParseType` and `Type.Validate` (resource/meta.go:48, resource/meta.go:71). The file defining them is not part of this model, so they are the parameters `parseType` and `typeCheck`.
  - Only `TypeUnknown` and `TypeFile` are named. Other types are `TypeOther`.
  - The `%v` text of a type is the parameter `typeText`.
- Panics from failed type assertions in `ParseMeta` (resource/meta.go:45-56). They are the precondition `ParsableData`: the data is nil, or a string-keyed map whose `type`, `filename` and `comment` entries are absent, nil or strings.
- Go's random map iteration order. The model fixes one order. Which error wins when several entries fail, and whether `params` or an explicit `properties` is written last, are stated for that fixed order only.
- Numbers and booleans in the decoded tree are opaque scalars.
- The index panic of `recurseMapOnKeys` on an empty path (actions.go:210). It is the precondition that the path is non-empty.
- Whether an action builds can itself depend on Go's map order, when `params` and `properties` are both given (see Findings). The builder `ReadActions` keeps the code's behaviour for the fixed order.
- The struct tags and serialisation annotations of `Actions` (actions.go:24-26), and `NewActions`, which only allocates.
- `ResourceMeta.ErrorMessage`: `%q` quoting of the path in the slash error (resource/meta.go:82) is written as plain double quotes, without Go's escaping of quotes, backslashes or control characters inside the path. `ActionSchemas.ErrorMessage` and `Cleansing.Message` do the same for keys.
- Error kinds (`errors.NewNotValid`, `errors.Annotatef` wrapping) are kept only as the error's variant and message text.

## Findings

| source | as written | input that shows it | evidently intended | confidence | as-written member | corrected member |
|---|---|---|---|---|---|---|
| actions.go:114-142 | `params` and an explicit `properties` entry both write schema key `properties`. The one Go's random map order visits last wins, and the self-check then judges that schema. | Action `a` with `params: {}` and `properties: "x"`, under a self-check that wants `properties` to be an object. It builds when `properties` comes first and fails when `params` comes first. | Whether an action builds, and what it builds, do not depend on map iteration order. | medium, not executed | `ActionSchemas.ParamsPropertiesOrderDecides` | `ActionSchemas.BuildActionStrictOrderFree` |

The corrected definition is `ActionSchemas.BuildActionStrict`. It rejects an action whose entries share a schema key, and otherwise it is the builder as written. The builder `ReadActions` and the lemmas about it keep the code's behaviour.

=== FILE: action_names.dfy ===
/** The action-name rule `actionNameRule` of actions.go. */
module ActionNames {

  predicate IsLower(c: char)
  {
    'a' <= c <= 'z'
  }

  predicate IsNameChar(c: char)
  {
    IsLower(c) || c == '-'
  }

  /** A valid action name: non-empty, starts and ends with a lower-case
      letter, and holds only lower-case letters and hyphens. */
  predicate ValidActionName(name: string)
  {
    && |name| > 0
    && IsLower(name[0])
    && IsLower(name[|name| - 1])
    && forall i :: 0 <= i < |name| ==> IsNameChar(name[i])
  }

  /** `[a-z-]*` */
  predicate NameCharsStar(s: string)
  {
    s == [] || (IsNameChar(s[0]) && NameCharsStar(s[1..]))
  }

  /** The regular expression `^[a-z](?:[a-z-]*[a-z])?$`, read clause by
      clause: one letter, then optionally a run of letters and hyphens
      closed by a letter. */
  predicate MatchesNameRule(name: string)
  {
    && |name| > 0
    && IsLower(name[0])
    && (|name| == 1 ||
        (NameCharsStar(name[1..|name| - 1]) && IsLower(name[|name| - 1])))
  }

  lemma {:induction false} NameCharsStarAll(s: string)
    ensures NameCharsStar(s) <==> forall i :: 0 <= i < |s| ==> IsNameChar(s[i])
  {
    if s != [] {
      NameCharsStarAll(s[1..]);
      assert forall i :: 1 <= i < |s| ==> s[i] == s[1..][i - 1];
    }
  }

  /** The plain predicate accepts exactly the names the regular expression
      matches. */
  lemma ValidActionNameMatchesRule(name: string)
    ensures ValidActionName(name) <==> MatchesNameRule(name)
  {
    if |name| > 1 {
      var mid := name[1..|name| - 1];
      NameCharsStarAll(mid);
      assert forall i :: 1 <= i < |name| - 1 ==> name[i] == mid[i - 1];
    }
  }

  /** Sample names on both sides of the rule: plain and hyphenated lower-case
      names pass; an upper-case letter, a leading or trailing hyphen and the
      empty name fail. */
  lemma ActionNameExamples()
    ensures ValidActionName("snapshot")
    ensures ValidActionName("a") && ValidActionName("take-snapshot")
    ensures !ValidActionName("Snapshot")
    ensures !ValidActionName("-snap")
    ensures !ValidActionName("snap-")
    ensures !ValidActionName("")
  {
  }
}

=== FILE: action_schemas.dfy ===
/** The action schema builder: the per-action loop of `ReadActionsYaml` in
    actions.go. Reading the file and decoding the YAML are left to the
    caller, who passes the decoded document; the JSON-Schema (draft 4)
    self-check of each built schema is the `selfCheck` parameter, which
    answers `None` when the document is a valid schema and the library's
    error text otherwise. */
module ActionSchemas {
  import opened Tree
  import opened Cleansing
  import opened ActionNames

  /** A built schema: Go's `map[string]interface{}`. */
  type SchemaDoc = map<string, Value>

  /** `ActionSpec`: the description and the parameter schema of an action. */
  datatype ActionSpec = ActionSpec(description: string, params: SchemaDoc)

  /** One action of the decoded document, as the decoder lists it. */
  datatype ActionDecl = ActionDecl(name: string, spec: seq<Entry>)

  datatype BuildError =
    | BadActionName(name: string)
    | NotAString(key: string)
    | NotAList(key: string)
    | Rejected(reason: CleanseError)
    | ParamsNotAMap
    | InvalidSchema(name: string, cause: string)
    | SharedSchemaKey

  /** The text of the Go error for each failure. Reference text only: the
      contracts speak of the error variants, and no member relies on these
      strings. `SharedSchemaKey` belongs to the corrected builder and has no
      counterpart in the code. */
  function ErrorMessage(e: BuildError): string
  {
    match e
    case BadActionName(n) => "bad action name " + n
    case NotAString(k) => "value for schema key \"" + k + "\" must be a string"
    case NotAList(k) => "value for schema key \"" + k + "\" must be a YAML list"
    case Rejected(c) => Message(c)
    case ParamsNotAMap => "params failed to parse as a map"
    case InvalidSchema(n, cause) => "invalid params schema for action schema " + n + ": " + cause
    case SharedSchemaKey => "action spec writes one schema key from two entries"
  }

  const DefaultDescription: string := "No description"

  /** The schema every action starts from. */
  function Scaffold(name: string): SchemaDoc
  {
    map["description" := Str(DefaultDescription), "type" := Str("object"),
        "title" := Str(name), "properties" := StrMap([])]
  }

  /** The schema key an action-spec key is written to. */
  function TargetKey(key: string): string
  {
    if key == "params" then "properties" else key
  }

  /** The entries an action spec accepts: strings for `description` and
      `title`, a list for `required`, a map that cleanses for `params`, and
      a cleansable value for any other key. */
  predicate EntryAcceptable(key: string, value: Value)
  {
    if key == "description" || key == "title" then value.Str?
    else if key == "required" then value.List?
    else if key == "params" then Cleansable(value) && (value.StrMap? || value.AnyMap?)
    else Cleansable(value)
  }

  /** The value an accepted entry writes: the three fixed keys verbatim,
      anything else in canonical form. */
  function Written(key: string, value: Value): Value
  {
    if key == "description" || key == "title" || key == "required" then value else Canonical(value)
  }

  /** The `switch key` of the builder for one entry: what it writes, and
      where, or why it fails. */
  function EntryWrite(key: string, value: Value): (r: Result<Entry, BuildError>)
  {
    if key == "description" || key == "title" then
      if value.Str? then Ok(Entry(key, value)) else Err(NotAString(key))
    else if key == "required" then
      if value.List? then Ok(Entry(key, value)) else Err(NotAList(key))
    else if key == "params" then
      match Cleanse(value)
      case Err(e) => Err(Rejected(e))
      case Ok(p) => if p.StrMap? then Ok(Entry("properties", p)) else Err(ParamsNotAMap)
    else
      match Cleanse(value)
      case Err(e) => Err(Rejected(e))
      case Ok(c) => Ok(Entry(key, c))
  }

  /** An entry is written exactly when it is acceptable, and then it writes
      its own value or the canonical form of it under its target key. */
  lemma EntryWriteSpec(key: string, value: Value)
    ensures EntryWrite(key, value).Ok? <==> EntryAcceptable(key, value)
    ensures EntryWrite(key, value).Ok? ==> EntryWrite(key, value).value == Entry(TargetKey(key), Written(key, value))
    ensures EntryWrite(key, value).Err? && EntryWrite(key, value).error.Rejected? ==>
      key != "description" && key != "title" && key != "required" && !Cleansable(value)
    ensures EntryWrite(key, value).Err? && EntryWrite(key, value).error.Rejected? ==>
      Cleanse(value) == Err(EntryWrite(key, value).error.reason)
    ensures EntryWrite(key, value).Err? && EntryWrite(key, value).error.NotAString? ==>
      (key == "description" || key == "title") && EntryWrite(key, value).error.key == key && !value.Str?
    ensures EntryWrite(key, value).Err? && EntryWrite(key, value).error.NotAList? ==>
      key == "required" && EntryWrite(key, value).error.key == key && !value.List?
    ensures EntryWrite(key, value).Err? && EntryWrite(key, value).error.ParamsNotAMap? ==>
      key == "params" && Cleansable(value) && !(value.StrMap? || value.AnyMap?)
    ensures EntryWrite(key, value).Err? ==>
      EntryWrite(key, value).error.Rejected? || EntryWrite(key, value).error.NotAString? ||
      EntryWrite(key, value).error.NotAList? || EntryWrite(key, value).error.ParamsNotAMap?
  {
    CleanseCorrect(value);
  }

  /** The schema and the description after applying the entries in order;
      the first failing entry decides the error. */
  function ApplyEntries(name: string, spec: seq<Entry>): Result<(SchemaDoc, string), BuildError>
    decreases |spec|
  {
    if spec == [] then Ok((Scaffold(name), DefaultDescription))
    else
      var last := spec[|spec| - 1];
      match ApplyEntries(name, spec[..|spec| - 1])
      case Err(e) => Err(e)
      case Ok((schema, desc)) =>
        match EntryWrite(last.key, last.val)
        case Err(e) => Err(e)
        case Ok(w) => Ok((schema[w.key := w.val], if last.key == "description" && w.val.Str? then w.val.s else desc))
  }

  /** One action: name check, entries, self-check. */
  function BuildAction(name: string, spec: seq<Entry>, selfCheck: SchemaDoc -> Option<string>): Result<ActionSpec, BuildError>
  {
    if !ValidActionName(name) then Err(BadActionName(name))
    else
      match ApplyEntries(name, spec)
      case Err(e) => Err(e)
      case Ok((schema, desc)) =>
        match selfCheck(schema)
        case Some(cause) => Err(InvalidSchema(name, cause))
        case None => Ok(ActionSpec(desc, schema))
  }

  /** The whole collection, all or nothing; the first failing action
      decides the error. */
  function BuildActions(doc: seq<ActionDecl>, selfCheck: SchemaDoc -> Option<string>): Result<map<string, ActionSpec>, BuildError>
    decreases |doc|
  {
    if doc == [] then Ok(map[])
    else
      var last := doc[|doc| - 1];
      match BuildActions(doc[..|doc| - 1], selfCheck)
      case Err(e) => Err(e)
      case Ok(m) =>
        match BuildAction(last.name, last.spec, selfCheck)
        case Err(e) => Err(e)
        case Ok(a) => Ok(m[last.name := a])
  }

  // ---------------------------------------------------------------------
  // The builder loop.
  // ---------------------------------------------------------------------

  /** `ReadActionsYaml` after decoding: the nested loops with their early
      returns, building each schema in a local map. */
  method ReadActions(doc: seq<ActionDecl>, selfCheck: SchemaDoc -> Option<string>)
    returns (r: Result<map<string, ActionSpec>, BuildError>)
    ensures r == BuildActions(doc, selfCheck)
  {
    var result: map<string, ActionSpec> := map[];
    for i := 0 to |doc|
      invariant BuildActions(doc[..i], selfCheck) == Ok(result)
    {
      assert doc[..i + 1][..i] == doc[..i];
      var name, actionSpec := doc[i].name, doc[i].spec;
      if !ValidActionName(name) {
        ActionsFailAt(doc, i, selfCheck);
        return Err(BadActionName(name));
      }

      var desc := DefaultDescription;
      var schema := Scaffold(name);
      for j := 0 to |actionSpec|
        invariant ApplyEntries(name, actionSpec[..j]) == Ok((schema, desc))
      {
        assert actionSpec[..j + 1][..j] == actionSpec[..j];
        var key, value := actionSpec[j].key, actionSpec[j].val;
        var failure: Option<BuildError> := None;
        if key == "description" {
          if value.Str? {
            schema := schema[key := value];
            desc := value.s;
          } else {
            failure := Some(NotAString(key));
          }
        } else if key == "title" {
          if value.Str? {
            schema := schema[key := value];
          } else {
            failure := Some(NotAString(key));
          }
        } else if key == "required" {
          if value.List? {
            schema := schema[key := value];
          } else {
            failure := Some(NotAList(key));
          }
        } else if key == "params" {
          var cleansed := Cleanse(value);
          if cleansed.Err? {
            failure := Some(Rejected(cleansed.error));
          } else if !cleansed.value.StrMap? {
            failure := Some(ParamsNotAMap);
          } else {
            schema := schema["properties" := cleansed.value];
          }
        } else {
          var cleansed := Cleanse(value);
          if cleansed.Err? {
            failure := Some(Rejected(cleansed.error));
          } else {
            schema := schema[key := cleansed.value];
          }
        }
        if failure.Some? {
          EntriesFailAt(name, actionSpec, j, selfCheck);
          ActionsFailAt(doc, i, selfCheck);
          return Err(failure.value);
        }
      }
      assert actionSpec[..|actionSpec|] == actionSpec;

      var check := selfCheck(schema);
      if check.Some? {
        ActionsFailAt(doc, i, selfCheck);
        return Err(InvalidSchema(name, check.value));
      }
      result := result[name := ActionSpec(desc, schema)];
    }
    assert doc[..|doc|] == doc;
    return Ok(result);
  }

  /** An entry that fails after successful ones fails the action with its
      own error. */
  lemma EntriesFailAt(name: string, spec: seq<Entry>, j: nat, selfCheck: SchemaDoc -> Option<string>)
    requires j < |spec|
    requires ValidActionName(name)
    requires ApplyEntries(name, spec[..j]).Ok?
    requires EntryWrite(spec[j].key, spec[j].val).Err?
    ensures BuildAction(name, spec, selfCheck) == Err(EntryWrite(spec[j].key, spec[j].val).error)
  {
    var prefix := spec[..j + 1];
    assert prefix[..j] == spec[..j] && prefix[j] == spec[j];
    assert ApplyEntries(name, prefix) == Err(EntryWrite(spec[j].key, spec[j].val).error);
    ApplyEntriesErrExtends(name, spec, j + 1);
    assert spec[..|spec|] == spec;
  }

  /** Once a prefix of the entries fails, every longer prefix fails with
      the same error. */
  lemma {:induction false} ApplyEntriesErrExtends(name: string, spec: seq<Entry>, k: nat)
    requires k <= |spec|
    requires ApplyEntries(name, spec[..k]).Err?
    decreases |spec| - k
    ensures ApplyEntries(name, spec) == ApplyEntries(name, spec[..k])
  {
    if k < |spec| {
      assert spec[..k + 1][..k] == spec[..k];
      ApplyEntriesErrExtends(name, spec, k + 1);
    } else {
      assert spec[..k] == spec;
    }
  }

  /** An action that fails after successful ones fails the collection with
      its own error. */
  lemma {:induction false} ActionsFailAt(doc: seq<ActionDecl>, i: nat, selfCheck: SchemaDoc -> Option<string>)
    requires i < |doc|
    requires BuildActions(doc[..i], selfCheck).Ok?
    requires BuildAction(doc[i].name, doc[i].spec, selfCheck).Err?
    decreases |doc|
    ensures BuildActions(doc, selfCheck) == Err(BuildAction(doc[i].name, doc[i].spec, selfCheck).error)
  {
    var init := doc[..|doc| - 1];
    if i == |doc| - 1 {
      assert init == doc[..i];
    } else {
      assert init[..i] == doc[..i] && init[i] == doc[i];
      ActionsFailAt(init, i, selfCheck);
    }
  }


  // ---------------------------------------------------------------------
  // What a build yields, independently of the order of the entries.
  // ---------------------------------------------------------------------

  predicate AllAcceptable(spec: seq<Entry>)
  {
    forall j :: 0 <= j < |spec| ==> EntryAcceptable(spec[j].key, spec[j].val)
  }

  /** The scaffold with every entry's write applied in turn, as Go's map
      assignments do. */
  function FinalSchema(name: string, spec: seq<Entry>): SchemaDoc
    decreases |spec|
  {
    if spec == [] then Scaffold(name)
    else
      var last := spec[|spec| - 1];
      FinalSchema(name, spec[..|spec| - 1])[TargetKey(last.key) := Written(last.key, last.val)]
  }

  /** What the last entry writing schema key `k` writes, if any does. */
  function LastWrite(spec: seq<Entry>, k: string): Option<Value>
    decreases |spec|
  {
    if spec == [] then None
    else
      var last := spec[|spec| - 1];
      if TargetKey(last.key) == k then Some(Written(last.key, last.val))
      else LastWrite(spec[..|spec| - 1], k)
  }

  /** The recorded description: the last string given, or the default. */
  function FinalDescription(spec: seq<Entry>): string
  {
    match LastWrite(spec, "description")
    case Some(Str(d)) => d
    case _ => DefaultDescription
  }

  /** Every key of the final schema holds what the last entry writing it
      wrote, and the scaffold's default when no entry writes it. */
  lemma {:induction false} FinalSchemaLastWins(name: string, spec: seq<Entry>)
    decreases |spec|
    ensures forall k :: k in FinalSchema(name, spec) <==> k in Scaffold(name) || LastWrite(spec, k).Some?
    ensures forall k :: k in FinalSchema(name, spec) ==>
      FinalSchema(name, spec)[k] == (if LastWrite(spec, k).Some? then LastWrite(spec, k).value else Scaffold(name)[k])
  {
    if spec != [] {
      FinalSchemaLastWins(name, spec[..|spec| - 1]);
    }
  }

  /** An entry that no later entry overrides decides its schema key. */
  lemma {:induction false} LastWriterWins(spec: seq<Entry>, j: nat)
    requires j < |spec|
    requires forall l :: j < l < |spec| ==> TargetKey(spec[l].key) != TargetKey(spec[j].key)
    decreases |spec|
    ensures LastWrite(spec, TargetKey(spec[j].key)) == Some(Written(spec[j].key, spec[j].val))
  {
    if j < |spec| - 1 {
      var init := spec[..|spec| - 1];
      assert init[j] == spec[j];
      LastWriterWins(init, j);
    }
  }

  /** A schema key that no entry writes keeps its default. */
  lemma {:induction false} NoWriter(spec: seq<Entry>, k: string)
    requires forall l :: 0 <= l < |spec| ==> TargetKey(spec[l].key) != k
    decreases |spec|
    ensures LastWrite(spec, k) == None
  {
    if spec != [] {
      NoWriter(spec[..|spec| - 1], k);
    }
  }

  /** In an acceptable spec, whatever is written to `description` or
      `title` is a string. */
  lemma {:induction false} FixedKeysStayStrings(spec: seq<Entry>, k: string)
    requires AllAcceptable(spec)
    requires k == "description" || k == "title"
    decreases |spec|
    ensures LastWrite(spec, k).Some? ==> LastWrite(spec, k).value.Str?
  {
    if spec != [] {
      FixedKeysStayStrings(spec[..|spec| - 1], k);
    }
  }

  /** The entries are applied without error exactly when each of them is
      acceptable, whatever their order, and then they yield the final
      schema and the final description. */
  lemma {:induction false} ApplyEntriesSpec(name: string, spec: seq<Entry>)
    decreases |spec|
    ensures ApplyEntries(name, spec).Ok? <==> AllAcceptable(spec)
    ensures ApplyEntries(name, spec).Ok? ==>
      ApplyEntries(name, spec).value == (FinalSchema(name, spec), FinalDescription(spec))
  {
    if spec != [] {
      var init, last := spec[..|spec| - 1], spec[|spec| - 1];
      ApplyEntriesSpec(name, init);
      EntryWriteSpec(last.key, last.val);
      assert AllAcceptable(spec) <==> AllAcceptable(init) && EntryAcceptable(last.key, last.val) by {
        assert forall j :: 0 <= j < |init| ==> init[j] == spec[j];
      }
    }
  }

  /** An action builds exactly when its name is valid, each entry is
      acceptable and the self-check accepts the final schema; it then
      records the final description and schema. */
  lemma BuildActionSpec(name: string, spec: seq<Entry>, selfCheck: SchemaDoc -> Option<string>)
    ensures BuildAction(name, spec, selfCheck).Ok? <==>
      ValidActionName(name) && AllAcceptable(spec) && selfCheck(FinalSchema(name, spec)).None?
    ensures BuildAction(name, spec, selfCheck).Ok? ==>
      BuildAction(name, spec, selfCheck).value == ActionSpec(FinalDescription(spec), FinalSchema(name, spec))
    ensures !ValidActionName(name) ==> BuildAction(name, spec, selfCheck) == Err(BadActionName(name))
    ensures ValidActionName(name) && AllAcceptable(spec) && selfCheck(FinalSchema(name, spec)).Some? ==>
      BuildAction(name, spec, selfCheck) == Err(InvalidSchema(name, selfCheck(FinalSchema(name, spec)).value))
  {
    ApplyEntriesSpec(name, spec);
  }

  /** A built schema holds the scaffold's keys and those the entries
      write, and no other. */
  lemma BuiltActionKeys(name: string, spec: seq<Entry>, selfCheck: SchemaDoc -> Option<string>)
    requires BuildAction(name, spec, selfCheck).Ok?
    ensures BuildAction(name, spec, selfCheck).value.params.Keys
      == Scaffold(name).Keys + (set j | 0 <= j < |spec| :: TargetKey(spec[j].key))
  {
    BuildActionSpec(name, spec, selfCheck);
    FinalSchemaLastWins(name, spec);
    var schema := FinalSchema(name, spec);
    var written := set j | 0 <= j < |spec| :: TargetKey(spec[j].key);
    forall k | k in Scaffold(name).Keys + written ensures k in schema {
      if k !in Scaffold(name).Keys {
        var j :| 0 <= j < |spec| && TargetKey(spec[j].key) == k;
        NoWriterConverse(spec, k, j);
      }
    }
    forall k | k in schema ensures k in Scaffold(name).Keys + written {
      if k !in Scaffold(name).Keys {
        var j := WriterOf(spec, k);
      }
    }
  }

  /** In a schema built from acceptable entries, the recorded description
      is the schema's `description` and the `title` is a string. */
  lemma SchemaFixedFields(name: string, spec: seq<Entry>)
    requires AllAcceptable(spec)
    ensures Scaffold(name).Keys <= FinalSchema(name, spec).Keys
    ensures FinalSchema(name, spec)["description"] == Str(FinalDescription(spec))
    ensures FinalSchema(name, spec)["title"].Str?
  {
    FinalSchemaLastWins(name, spec);
    FixedKeysStayStrings(spec, "description");
    FixedKeysStayStrings(spec, "title");
  }

  /** A scaffold key that no entry writes keeps its default. */
  lemma SchemaKeepsDefault(name: string, spec: seq<Entry>, k: string)
    requires k in Scaffold(name)
    requires forall l :: 0 <= l < |spec| ==> TargetKey(spec[l].key) != k
    ensures k in FinalSchema(name, spec) && FinalSchema(name, spec)[k] == Scaffold(name)[k]
    ensures k == "description" ==> FinalDescription(spec) == DefaultDescription
  {
    FinalSchemaLastWins(name, spec);
    NoWriter(spec, k);
  }

  /** The fields every built action has: the recorded description is the
      schema's `description`, the `title` is a string, and `type`, `title`,
      `description` and `properties` keep their defaults unless an entry
      sets them. */
  lemma BuiltActionDefaults(name: string, spec: seq<Entry>, selfCheck: SchemaDoc -> Option<string>)
    requires BuildAction(name, spec, selfCheck).Ok?
    ensures var a := BuildAction(name, spec, selfCheck).value;
      && a.params.Keys >= Scaffold(name).Keys
      && a.params["description"] == Str(a.description)
      && a.params["title"].Str?
      && ((forall j :: 0 <= j < |spec| ==> spec[j].key != "description") ==> a.description == DefaultDescription)
      && ((forall j :: 0 <= j < |spec| ==> spec[j].key != "type") ==> a.params["type"] == Str("object"))
      && ((forall j :: 0 <= j < |spec| ==> spec[j].key != "title") ==> a.params["title"] == Str(name))
      && ((forall j :: 0 <= j < |spec| ==> spec[j].key != "params" && spec[j].key != "properties") ==>
            a.params["properties"] == StrMap([]))
  {
    BuildActionSpec(name, spec, selfCheck);
    SchemaFixedFields(name, spec);
    if forall j :: 0 <= j < |spec| ==> spec[j].key != "description" {
      SchemaKeepsDefault(name, spec, "description");
    }
    if forall j :: 0 <= j < |spec| ==> spec[j].key != "type" {
      SchemaKeepsDefault(name, spec, "type");
    }
    if forall j :: 0 <= j < |spec| ==> spec[j].key != "title" {
      SchemaKeepsDefault(name, spec, "title");
    }
    if forall j :: 0 <= j < |spec| ==> spec[j].key != "params" && spec[j].key != "properties" {
      SchemaKeepsDefault(name, spec, "properties");
    }
  }

  lemma {:induction false} NoWriterConverse(spec: seq<Entry>, k: string, j: nat)
    requires j < |spec| && TargetKey(spec[j].key) == k
    decreases |spec|
    ensures LastWrite(spec, k).Some?
  {
    if TargetKey(spec[|spec| - 1].key) != k {
      var init := spec[..|spec| - 1];
      assert init[j] == spec[j];
      NoWriterConverse(init, k, j);
    }
  }

  lemma {:induction false} WriterOf(spec: seq<Entry>, k: string) returns (j: nat)
    requires LastWrite(spec, k).Some?
    decreases |spec|
    ensures j < |spec| && TargetKey(spec[j].key) == k
  {
    if TargetKey(spec[|spec| - 1].key) == k {
      j := |spec| - 1;
    } else {
      var init := spec[..|spec| - 1];
      j := WriterOf(init, k);
      assert init[j] == spec[j];
    }
  }

  /** The entry that no later entry overrides decides its key: `params`
      lands in `properties` as its cleansed form, `required` is stored
      verbatim, a `description` becomes the recorded description, and any
      other key holds its cleansed value. */
  lemma LastEntryWins(name: string, spec: seq<Entry>, selfCheck: SchemaDoc -> Option<string>, j: nat)
    requires BuildAction(name, spec, selfCheck).Ok?
    requires j < |spec|
    requires forall l :: j < l < |spec| ==> TargetKey(spec[l].key) != TargetKey(spec[j].key)
    ensures var a := BuildAction(name, spec, selfCheck).value;
      var k, v := spec[j].key, spec[j].val;
      && TargetKey(k) in a.params
      && (k == "description" || k == "title" || k == "required" ==> a.params[k] == v)
      && (k == "description" ==> v.Str? && a.description == v.s)
      && (k != "description" && k != "title" && k != "required" ==> Cleanse(v) == Ok(a.params[TargetKey(k)]))
  {
    BuildActionSpec(name, spec, selfCheck);
    FinalSchemaLastWins(name, spec);
    LastWriterWins(spec, j);
    CleanseCorrect(spec[j].val);
  }

  /** The collection builds exactly when every action builds, whatever
      the order. */
  lemma {:induction false} BuildActionsOk(doc: seq<ActionDecl>, selfCheck: SchemaDoc -> Option<string>)
    decreases |doc|
    ensures BuildActions(doc, selfCheck).Ok? <==>
      forall i :: 0 <= i < |doc| ==> BuildAction(doc[i].name, doc[i].spec, selfCheck).Ok?
  {
    if doc != [] {
      var init := doc[..|doc| - 1];
      BuildActionsOk(init, selfCheck);
      assert forall i :: 0 <= i < |init| ==> init[i] == doc[i];
    }
  }

  /** A built collection holds exactly the declared names. */
  lemma {:induction false} BuildActionsKeys(doc: seq<ActionDecl>, selfCheck: SchemaDoc -> Option<string>)
    requires BuildActions(doc, selfCheck).Ok?
    decreases |doc|
    ensures BuildActions(doc, selfCheck).value.Keys == set i | 0 <= i < |doc| :: doc[i].name
  {
    if doc != [] {
      var init := doc[..|doc| - 1];
      BuildActionsKeys(init, selfCheck);
      assert forall i :: 0 <= i < |init| ==> init[i] == doc[i];
      assert (set i | 0 <= i < |doc| :: doc[i].name) == (set i | 0 <= i < |init| :: init[i].name) + {doc[|doc| - 1].name};
    }
  }

  /** A built collection maps each name to the action last declared under
      it. */
  lemma {:induction false} BuildActionsValues(doc: seq<ActionDecl>, selfCheck: SchemaDoc -> Option<string>, i: nat)
    requires BuildActions(doc, selfCheck).Ok?
    requires i < |doc|
    requires forall l :: i < l < |doc| ==> doc[l].name != doc[i].name
    decreases |doc|
    ensures doc[i].name in BuildActions(doc, selfCheck).value
    ensures BuildAction(doc[i].name, doc[i].spec, selfCheck).Ok?
    ensures BuildActions(doc, selfCheck).value[doc[i].name] == BuildAction(doc[i].name, doc[i].spec, selfCheck).value
  {
    if i < |doc| - 1 {
      var init := doc[..|doc| - 1];
      assert init[i] == doc[i];
      BuildActionsValues(init, selfCheck, i);
    }
  }

  /** On failure the error is that of the first action that fails. */
  lemma {:induction false} BuildActionsFirstError(doc: seq<ActionDecl>, selfCheck: SchemaDoc -> Option<string>) returns (i: nat)
    requires BuildActions(doc, selfCheck).Err?
    decreases |doc|
    ensures i < |doc| && BuildAction(doc[i].name, doc[i].spec, selfCheck).Err?
    ensures BuildActions(doc, selfCheck) == Err(BuildAction(doc[i].name, doc[i].spec, selfCheck).error)
    ensures forall l :: 0 <= l < i ==> BuildAction(doc[l].name, doc[l].spec, selfCheck).Ok?
  {
    var init := doc[..|doc| - 1];
    if BuildActions(init, selfCheck).Err? {
      i := BuildActionsFirstError(init, selfCheck);
      assert init[i] == doc[i];
      assert forall l :: 0 <= l < i ==> init[l] == doc[l];
    } else {
      i := |doc| - 1;
      BuildActionsOk(init, selfCheck);
      assert forall l :: 0 <= l < i ==> init[l] == doc[l];
    }
  }

  // ---------------------------------------------------------------------
  // What a built schema is made of.
  // ---------------------------------------------------------------------

  /** Among acceptable entries, whatever is written to a key other than
      `required` is string-keyed and free of reserved keys. */
  lemma {:induction false} WrittenIsClean(spec: seq<Entry>, k: string)
    requires AllAcceptable(spec)
    requires k != "required"
    decreases |spec|
    ensures LastWrite(spec, k).Some? ==>
      StringKeyed(LastWrite(spec, k).value) && Cleansable(LastWrite(spec, k).value)
  {
    if spec != [] {
      var last := spec[|spec| - 1];
      if TargetKey(last.key) == k {
        if last.key != "description" && last.key != "title" {
          CanonicalKeepsCleansable(last.val);
        }
      } else {
        WrittenIsClean(spec[..|spec| - 1], k);
      }
    }
  }

  /** Every value of a built schema except `required` is string-keyed and
      holds no reserved key at any depth. */
  lemma BuiltSchemaIsClean(name: string, spec: seq<Entry>, selfCheck: SchemaDoc -> Option<string>)
    requires BuildAction(name, spec, selfCheck).Ok?
    ensures var schema := BuildAction(name, spec, selfCheck).value.params;
      forall k :: k in schema && k != "required" ==> StringKeyed(schema[k]) && Cleansable(schema[k])
  {
    BuildActionSpec(name, spec, selfCheck);
    FinalSchemaLastWins(name, spec);
    forall k | k != "required" {
      WrittenIsClean(spec, k);
    }
  }

  /** Only entry values are cleansed, never the entry keys: a top-level
      `$ref` entry lands in the schema. */
  lemma ReservedEntryKeyKept()
    ensures var r := BuildAction("a", [Entry("$ref", Str("x"))], s => None);
      r.Ok? && r.value.params["$ref"] == Str("x")
  {
    var spec := [Entry("$ref", Str("x"))];
    assert spec[..0] == [];
    assert EntryWrite("$ref", Str("x")) == Ok(Entry("$ref", Str("x")));
    assert ApplyEntries("a", spec).Ok?;
  }

  /** `required` is stored verbatim: an any-keyed map inside it survives
      into the schema. */
  lemma RequiredKeptVerbatim()
    ensures var r := BuildAction("a", [Entry("required", List([AnyMap([Pair(Scalar(1), Null)])]))], s => None);
      r.Ok? && !StringKeyed(r.value.params["required"])
  {
    var v := List([AnyMap([Pair(Scalar(1), Null)])]);
    var spec := [Entry("required", v)];
    assert spec[..0] == [];
    assert ApplyEntries("a", spec) == Ok((Scaffold("a")["required" := v], DefaultDescription));
    assert !StringKeyed(v.items[0]);
  }

  // ---------------------------------------------------------------------
  // The order of `params` and `properties`.
  // ---------------------------------------------------------------------

  /** A self-check asking only what draft 4 asks of `properties`: that it
      is an object. */
  function PropertiesMustBeObject(schema: SchemaDoc): Option<string>
  {
    if "properties" in schema && !schema["properties"].StrMap? then Some("properties must be an object") else None
  }

  /** The same two entries build in one order and fail in the other: the
      self-check sees whichever of `params` and `properties` was written
      last. */
  lemma ParamsPropertiesOrderDecides()
    ensures BuildAction("a", [Entry("params", StrMap([])), Entry("properties", Str("x"))], PropertiesMustBeObject).Err?
    ensures BuildAction("a", [Entry("properties", Str("x")), Entry("params", StrMap([]))], PropertiesMustBeObject).Ok?
  {
    var p, q := Entry("params", StrMap([])), Entry("properties", Str("x"));
    assert Cleanse(StrMap([])) == Ok(StrMap([]));
    assert EntryWrite(p.key, p.val) == Ok(Entry("properties", StrMap([])));
    assert EntryWrite(q.key, q.val) == Ok(Entry("properties", Str("x")));
    var pq, qp := [p, q], [q, p];
    assert pq[..1] == [p] && [p][..0] == [];
    assert qp[..1] == [q] && [q][..0] == [];
    var scaffold := Scaffold("a");
    assert ApplyEntries("a", [p]) == Ok((scaffold["properties" := StrMap([])], DefaultDescription));
    assert ApplyEntries("a", pq) == Ok((scaffold["properties" := StrMap([])]["properties" := Str("x")], DefaultDescription));
    assert ApplyEntries("a", [q]) == Ok((scaffold["properties" := Str("x")], DefaultDescription));
    assert ApplyEntries("a", qp) == Ok((scaffold["properties" := Str("x")]["properties" := StrMap([])], DefaultDescription));
  }

  /** No two different entries write the same schema key. For a decoded
      map this only fails when both `params` and `properties` are given. */
  predicate NoSharedTarget(spec: seq<Entry>)
  {
    forall e1, e2 :: e1 in spec && e2 in spec && TargetKey(e1.key) == TargetKey(e2.key) ==> e1 == e2
  }

  /** The builder with the order dependence removed: an action whose
      entries share a schema key is rejected. */
  function BuildActionStrict(name: string, spec: seq<Entry>, selfCheck: SchemaDoc -> Option<string>): Result<ActionSpec, BuildError>
  {
    if ValidActionName(name) && !NoSharedTarget(spec) then Err(SharedSchemaKey)
    else BuildAction(name, spec, selfCheck)
  }

  /** When no schema key is shared, the one entry writing a key decides it,
      wherever it stands. */
  lemma {:induction false} UniqueWriter(spec: seq<Entry>, e: Entry)
    requires NoSharedTarget(spec)
    requires e in spec
    decreases |spec|
    ensures LastWrite(spec, TargetKey(e.key)) == Some(Written(e.key, e.val))
  {
    var init, last := spec[..|spec| - 1], spec[|spec| - 1];
    assert spec == init + [last];
    if TargetKey(last.key) != TargetKey(e.key) {
      assert e in init;
      UniqueWriter(init, e);
    }
  }

  lemma LastWriteOrderFree(spec: seq<Entry>, spec': seq<Entry>, k: string)
    requires forall e :: e in spec <==> e in spec'
    requires NoSharedTarget(spec)
    ensures LastWrite(spec, k) == LastWrite(spec', k)
  {
    if e :| e in spec && TargetKey(e.key) == k {
      UniqueWriter(spec, e);
      UniqueWriter(spec', e);
    } else {
      assert forall l :: 0 <= l < |spec| ==> spec[l] in spec;
      assert forall l :: 0 <= l < |spec'| ==> spec'[l] in spec';
      NoWriter(spec, k);
      NoWriter(spec', k);
    }
  }

  lemma SameMembers(spec: seq<Entry>, spec': seq<Entry>)
    requires multiset(spec) == multiset(spec')
    ensures forall e :: e in spec <==> e in spec'
  {
    forall e ensures e in spec <==> e in spec' {
      assert e in spec <==> e in multiset(spec);
      assert e in spec' <==> e in multiset(spec');
    }
  }

  lemma AcceptableOrderFree(spec: seq<Entry>, spec': seq<Entry>)
    requires forall e :: e in spec <==> e in spec'
    ensures AllAcceptable(spec) <==> AllAcceptable(spec')
  {
    assert forall j :: 0 <= j < |spec| ==> spec[j] in spec';
    assert forall j :: 0 <= j < |spec'| ==> spec'[j] in spec;
  }

  lemma FinalSchemaOrderFree(name: string, spec: seq<Entry>, spec': seq<Entry>)
    requires forall k :: LastWrite(spec, k) == LastWrite(spec', k)
    ensures FinalSchema(name, spec) == FinalSchema(name, spec')
  {
    FinalSchemaLastWins(name, spec);
    FinalSchemaLastWins(name, spec');
  }

  lemma ApplyEntriesOrderFree(name: string, spec: seq<Entry>, spec': seq<Entry>)
    requires multiset(spec) == multiset(spec')
    requires NoSharedTarget(spec)
    ensures ApplyEntries(name, spec).Ok? <==> ApplyEntries(name, spec').Ok?
    ensures ApplyEntries(name, spec).Ok? ==> ApplyEntries(name, spec) == ApplyEntries(name, spec')
  {
    SameMembers(spec, spec');
    AcceptableOrderFree(spec, spec');
    FinalOrderFree(name, spec, spec');
    ApplyEntriesSpec(name, spec);
    ApplyEntriesSpec(name, spec');
  }

  lemma FinalOrderFree(name: string, spec: seq<Entry>, spec': seq<Entry>)
    requires forall e :: e in spec <==> e in spec'
    requires NoSharedTarget(spec)
    ensures FinalSchema(name, spec) == FinalSchema(name, spec')
    ensures FinalDescription(spec) == FinalDescription(spec')
  {
    forall k ensures LastWrite(spec, k) == LastWrite(spec', k) {
      LastWriteOrderFree(spec, spec', k);
    }
    FinalSchemaOrderFree(name, spec, spec');
  }

  /** Without a shared schema key, reordering the entries changes neither
      whether the action builds nor what it builds. */
  lemma BuildActionOrderFree(name: string, spec: seq<Entry>, spec': seq<Entry>, selfCheck: SchemaDoc -> Option<string>)
    requires multiset(spec) == multiset(spec')
    requires NoSharedTarget(spec)
    ensures BuildAction(name, spec, selfCheck).Ok? <==> BuildAction(name, spec', selfCheck).Ok?
    ensures BuildAction(name, spec, selfCheck).Ok? ==> BuildAction(name, spec, selfCheck) == BuildAction(name, spec', selfCheck)
  {
    ApplyEntriesOrderFree(name, spec, spec');
  }

  /** The corrected builder does not depend on the entry order: whether an
      action builds, and what it builds, are the same for every order. */
  lemma BuildActionStrictOrderFree(name: string, spec: seq<Entry>, spec': seq<Entry>, selfCheck: SchemaDoc -> Option<string>)
    requires multiset(spec) == multiset(spec')
    ensures BuildActionStrict(name, spec, selfCheck).Ok? <==> BuildActionStrict(name, spec', selfCheck).Ok?
    ensures BuildActionStrict(name, spec, selfCheck).Ok? ==>
      BuildActionStrict(name, spec, selfCheck) == BuildActionStrict(name, spec', selfCheck)
    ensures BuildActionStrict(name, spec, selfCheck).Ok? ==>
      BuildActionStrict(name, spec, selfCheck) == BuildAction(name, spec, selfCheck)
  {
    SameMembers(spec, spec');
    assert NoSharedTarget(spec) <==> NoSharedTarget(spec');
    if NoSharedTarget(spec) {
      BuildActionOrderFree(name, spec, spec', selfCheck);
    }
  }

  /** A sample `snapshot` action with a description and one string-typed
      parameter, and the schema it builds into. */
  function SnapshotParams(): Value
  {
    StrMap([Entry("outfile", StrMap([Entry("type", Str("string"))]))])
  }

  function SnapshotSchema(): SchemaDoc
  {
    map["description" := Str("take snapshot"), "type" := Str("object"),
        "title" := Str("snapshot"), "properties" := SnapshotParams()]
  }

  lemma SnapshotExample(selfCheck: SchemaDoc -> Option<string>)
    requires selfCheck(SnapshotSchema()) == None
    ensures BuildActions([ActionDecl("snapshot", [Entry("description", Str("take snapshot")), Entry("params", SnapshotParams())])], selfCheck)
      == Ok(map["snapshot" := ActionSpec("take snapshot", SnapshotSchema())])
  {
    var spec := [Entry("description", Str("take snapshot")), Entry("params", SnapshotParams())];
    CleanseOfCanonicalTree(SnapshotParams());
    assert spec[..1] == [spec[0]] && spec[..1][..0] == [];
    var afterDescription := Scaffold("snapshot")["description" := Str("take snapshot")];
    assert ApplyEntries("snapshot", spec[..1]) == Ok((afterDescription, "take snapshot"));
    assert EntryWrite("params", SnapshotParams()) == Ok(Entry("properties", SnapshotParams()));
    assert afterDescription["properties" := SnapshotParams()] == SnapshotSchema();
    assert ApplyEntries("snapshot", spec) == Ok((SnapshotSchema(), "take snapshot"));
    var doc := [ActionDecl("snapshot", spec)];
    assert doc[..0] == [];
  }
}

=== FILE: cleanse.dfy ===
/** The generic-tree canonicaliser `cleanse` of actions.go: it rewrites a
    decoded tree so that every map is string-keyed, and rejects the schema
    keys `$ref` and `$schema` and any map keyed by a non-string. */
module Cleansing {
  import opened Tree

  /** Schema keys that an action schema may not use, at any depth. */
  const ReservedKeys: set<string> := {"$ref", "$schema"}

  datatype CleanseError = ReservedKey(key: string) | NonStringKey

  /** The text of the Go error for each rejection. Reference text only:
      the contracts speak of the error variants, and no member relies on
      these strings. */
  function Message(e: CleanseError): string
  {
    match e
    case ReservedKey(k) => "schema key \"" + k + "\" not compatible with this version of juju"
    case NonStringKey => "map keyed with non-string value"
  }

  /** No `map[interface{}]interface{}` anywhere in the tree. */
  predicate StringKeyed(v: Value)
  {
    match v
    case List(items) => forall i :: 0 <= i < |items| ==> StringKeyed(items[i])
    case StrMap(es) => forall i :: 0 <= i < |es| ==> StringKeyed(es[i].val)
    case AnyMap(_) => false
    case _ => true
  }

  /** The trees `cleanse` accepts: every map key is a string (after
      coercion) and none is reserved. */
  predicate Cleansable(v: Value)
  {
    match v
    case List(items) => forall i :: 0 <= i < |items| ==> Cleansable(items[i])
    case StrMap(es) => forall i :: 0 <= i < |es| ==> es[i].key !in ReservedKeys && Cleansable(es[i].val)
    case AnyMap(ps) =>
      forall i :: 0 <= i < |ps| ==>
        ps[i].key.Str? && ps[i].key.s !in ReservedKeys && Cleansable(assert ps[i].val < ps[i]; ps[i].val)
    case _ => true
  }

  /** Whether `k` is, as a string, a key of some map anywhere in the tree
      that `cleanse` reaches a reserved-key check for (an any-keyed map counts
      only when all its keys are strings, since coercion fails first). */
  predicate KeyOccurs(v: Value, k: string)
  {
    match v
    case List(items) => exists i :: 0 <= i < |items| && KeyOccurs(items[i], k)
    case StrMap(es) => exists i :: 0 <= i < |es| && (es[i].key == k || KeyOccurs(es[i].val, k))
    case AnyMap(ps) =>
      (forall j :: 0 <= j < |ps| ==> ps[j].key.Str?) &&
      exists i :: 0 <= i < |ps| && (ps[i].key == Str(k) || KeyOccurs(assert ps[i].val < ps[i]; ps[i].val, k))
    case _ => false
  }

  /** What the non-string-key error stands for: an any-keyed map with a
      non-string key, or a list with an element `cleanse` rejects (a list
      reports every rejection of its elements that way). */
  predicate NonStringCause(v: Value)
  {
    match v
    case List(items) => exists i :: 0 <= i < |items| && !Cleansable(items[i])
    case StrMap(es) => exists i :: 0 <= i < |es| && NonStringCause(es[i].val)
    case AnyMap(ps) =>
      exists i :: 0 <= i < |ps| && (!ps[i].key.Str? || NonStringCause(assert ps[i].val < ps[i]; ps[i].val))
    case _ => false
  }

  /** The text of a key that is a string (any other key never reaches a
      canonical tree). */
  function KeyText(k: Value): string
  {
    if k.Str? then k.s else ""
  }

  /** Reference definition of the canonical form: the same tree with every
      any-keyed map turned into the string-keyed map of the same bindings. */
  function Canonical(v: Value): (w: Value)
    ensures StringKeyed(w)
  {
    match v
    case List(items) => List(CanonicalItems(items))
    case StrMap(es) => StrMap(CanonicalEntries(es))
    case AnyMap(ps) => StrMap(CanonicalPairs(ps))
    case _ => v
  }

  function CanonicalItems(items: seq<Value>): (r: seq<Value>)
    ensures |r| == |items|
    ensures forall i :: 0 <= i < |r| ==> StringKeyed(r[i])
  {
    seq(|items|, i requires 0 <= i < |items| => Canonical(items[i]))
  }

  function CanonicalEntries(es: seq<Entry>): (r: seq<Entry>)
    ensures |r| == |es|
    ensures forall i :: 0 <= i < |r| ==> r[i].key == es[i].key && StringKeyed(r[i].val)
  {
    seq(|es|, i requires 0 <= i < |es| => Entry(es[i].key, Canonical(es[i].val)))
  }

  function CanonicalPairs(ps: seq<Pair>): (r: seq<Entry>)
    ensures |r| == |ps|
    ensures forall i :: 0 <= i < |r| ==> r[i].key == KeyText(ps[i].key) && StringKeyed(r[i].val)
  {
    seq(|ps|, i requires 0 <= i < |ps| => Entry(KeyText(ps[i].key), Canonical(assert ps[i].val < ps[i]; ps[i].val)))
  }

  /** The key-coercion loop of the `map[interface{}]interface{}` case: the
      same bindings with string keys, or nothing when a key is not a string. */
  function CoerceKeys(ps: seq<Pair>): (r: Option<seq<Entry>>)
    ensures r.None? <==> exists i :: 0 <= i < |ps| && !ps[i].key.Str?
    ensures r.Some? ==> |r.value| == |ps|
    ensures r.Some? ==> forall i :: 0 <= i < |ps| ==> r.value[i] == Entry(ps[i].key.s, ps[i].val)
    ensures r.Some? ==> EntriesSize(r.value) == PairsSize(ps)
  {
    if ps == [] then Some([])
    else if !ps[0].key.Str? then None
    else
      match CoerceKeys(ps[1..])
      case None => None
      case Some(rest) => Some([Entry(ps[0].key.s, ps[0].val)] + rest)
  }

  /** `cleanse`. Maps are walked in their (fixed) order and the first
      rejection is returned. */
  function Cleanse(v: Value): (r: Result<Value, CleanseError>)
    decreases Size(v), 1
    ensures r.Ok? ==> StringKeyed(r.value)
    ensures r.Err? ==> !Cleansable(v)
    ensures r.Err? && r.error.ReservedKey? ==> r.error.key in ReservedKeys && KeyOccurs(v, r.error.key)
    ensures r == Err(NonStringKey) ==> NonStringCause(v)
    ensures v.AnyMap? && (exists i :: 0 <= i < |v.pairs| && !v.pairs[i].key.Str?) ==> r == Err(NonStringKey)
    ensures r.Ok? && v.List? ==> r.value.List? && |r.value.items| == |v.items|
    ensures r.Ok? && (v.StrMap? || v.AnyMap?) ==> r.value.StrMap?
    ensures !(v.List? || v.StrMap? || v.AnyMap?) ==> r == Ok(v)
  {
    match v
    case StrMap(es) =>
      (match CleanseEntries(es)
       case Ok(es') => Ok(StrMap(es'))
       case Err(e) => Err(e))
    case AnyMap(ps) =>
      // every key is coerced before any reserved key is looked for
      (match CoerceKeys(ps)
       case None => Err(NonStringKey)
       case Some(es) => Cleanse(StrMap(es)))
    case List(items) =>
      (match CleanseItems(items)
       case Ok(items') => Ok(List(items'))
       case Err(e) => Err(e))
    case _ => Ok(v)
  }

  /** The loop over a `map[string]interface{}`. */
  function CleanseEntries(es: seq<Entry>): (r: Result<seq<Entry>, CleanseError>)
    decreases EntriesSize(es), 0
    ensures r.Ok? ==> |r.value| == |es|
    ensures r.Ok? ==> forall i :: 0 <= i < |es| ==> r.value[i].key == es[i].key && StringKeyed(r.value[i].val)
    ensures r.Err? ==> !Cleansable(StrMap(es))
    ensures r.Err? && r.error.ReservedKey? ==> r.error.key in ReservedKeys && KeyOccurs(StrMap(es), r.error.key)
    ensures r == Err(NonStringKey) ==> NonStringCause(StrMap(es))
  {
    if es == [] then Ok([])
    else if es[0].key in ReservedKeys then Err(ReservedKey(es[0].key))
    else
      match Cleanse(es[0].val)
      case Err(e) => Err(e)
      case Ok(v') =>
        match CleanseEntries(es[1..])
        case Err(e) => Err(e)
        case Ok(rest) => Ok([Entry(es[0].key, v')] + rest)
  }

  /** The loop over a `[]interface{}`: any failing element fails the whole
      list, and always with the non-string-key error. */
  function CleanseItems(items: seq<Value>): (r: Result<seq<Value>, CleanseError>)
    decreases ItemsSize(items), 0
    ensures r.Ok? ==> |r.value| == |items|
    ensures r.Ok? ==> forall i :: 0 <= i < |items| ==> StringKeyed(r.value[i])
    ensures r.Err? ==> r.error == NonStringKey && !Cleansable(List(items))
  {
    if items == [] then Ok([])
    else
      match Cleanse(items[0])
      case Err(_) => Err(NonStringKey)
      case Ok(v') =>
        match CleanseItems(items[1..])
        case Err(e) => Err(e)
        case Ok(rest) => Ok([v'] + rest)
  }

  /** `cleanse` succeeds exactly on the cleansable trees, and then returns
      their canonical form. */
  lemma {:induction false} CleanseCorrect(v: Value)
    decreases Size(v), 1
    ensures Cleanse(v).Ok? <==> Cleansable(v)
    ensures Cleanse(v).Ok? ==> Cleanse(v).value == Canonical(v)
  {
    match v
    case StrMap(es) =>
      CleanseEntriesCorrect(es);
    case AnyMap(ps) =>
      match CoerceKeys(ps) {
        case None =>
        case Some(es) =>
          CleanseEntriesCorrect(es);
          assert CanonicalEntries(es) == CanonicalPairs(ps);
          assert Cleansable(StrMap(es)) <==> Cleansable(AnyMap(ps)) by {
            forall i | 0 <= i < |ps|
              ensures (es[i].key !in ReservedKeys && Cleansable(es[i].val))
                  <==> (ps[i].key.Str? && ps[i].key.s !in ReservedKeys && Cleansable(ps[i].val))
            {
              assert es[i] == Entry(ps[i].key.s, ps[i].val);
            }
          }
      }
    case List(items) =>
      CleanseItemsCorrect(items);
    case _ =>
  }

  lemma {:induction false} CleanseEntriesCorrect(es: seq<Entry>)
    decreases EntriesSize(es), 0
    ensures CleanseEntries(es).Ok? <==> Cleansable(StrMap(es))
    ensures CleanseEntries(es).Ok? ==> CleanseEntries(es).value == CanonicalEntries(es)
  {
    if es != [] && es[0].key !in ReservedKeys {
      CleanseCorrect(es[0].val);
      CleanseEntriesCorrect(es[1..]);
      assert Cleansable(StrMap(es)) <==> Cleansable(es[0].val) && Cleansable(StrMap(es[1..])) by {
        if Cleansable(es[0].val) && Cleansable(StrMap(es[1..])) {
          forall i | 0 <= i < |es| ensures es[i].key !in ReservedKeys && Cleansable(es[i].val) {
            if i > 0 { assert es[i] == es[1..][i - 1]; }
          }
        }
        if Cleansable(StrMap(es)) {
          forall i | 0 <= i < |es| - 1
            ensures es[1..][i].key !in ReservedKeys && Cleansable(es[1..][i].val)
          {
            assert es[1..][i] == es[i + 1];
          }
        }
      }
      assert CanonicalEntries(es) == [Entry(es[0].key, Canonical(es[0].val))] + CanonicalEntries(es[1..]);
    }
  }

  lemma {:induction false} CleanseItemsCorrect(items: seq<Value>)
    decreases ItemsSize(items), 0
    ensures CleanseItems(items).Ok? <==> Cleansable(List(items))
    ensures CleanseItems(items).Ok? ==> CleanseItems(items).value == CanonicalItems(items)
  {
    if items != [] {
      CleanseCorrect(items[0]);
      CleanseItemsCorrect(items[1..]);
      assert Cleansable(List(items)) <==> Cleansable(items[0]) && Cleansable(List(items[1..])) by {
        if Cleansable(items[0]) && Cleansable(List(items[1..])) {
          forall i | 0 <= i < |items| ensures Cleansable(items[i]) {
            if i > 0 { assert items[i] == items[1..][i - 1]; }
          }
        }
        if Cleansable(List(items)) {
          forall i | 0 <= i < |items| - 1 ensures Cleansable(items[1..][i]) {
            assert items[1..][i] == items[i + 1];
          }
        }
      }
      assert CanonicalItems(items) == [Canonical(items[0])] + CanonicalItems(items[1..]);
    }
  }

  /** A tree that is already string-keyed is its own canonical form. */
  lemma {:induction false} CanonicalOfStringKeyed(v: Value)
    requires StringKeyed(v)
    ensures Canonical(v) == v
  {
    match v
    case List(items) =>
      forall i | 0 <= i < |items| ensures Canonical(items[i]) == items[i] {
        CanonicalOfStringKeyed(items[i]);
      }
      assert CanonicalItems(items) == items;
    case StrMap(es) =>
      forall i | 0 <= i < |es| ensures Canonical(es[i].val) == es[i].val {
        CanonicalOfStringKeyed(es[i].val);
      }
      assert CanonicalEntries(es) == es;
    case _ =>
  }

  /** Canonicalising keeps every key, so a cleansable tree stays cleansable. */
  lemma {:induction false} CanonicalKeepsCleansable(v: Value)
    requires Cleansable(v)
    ensures Cleansable(Canonical(v))
  {
    match v
    case List(items) =>
      forall i | 0 <= i < |items| ensures Cleansable(Canonical(items[i])) {
        CanonicalKeepsCleansable(items[i]);
      }
    case StrMap(es) =>
      forall i | 0 <= i < |es| ensures Cleansable(Canonical(es[i].val)) {
        CanonicalKeepsCleansable(es[i].val);
      }
    case AnyMap(ps) =>
      forall i | 0 <= i < |ps| ensures Cleansable(Canonical(ps[i].val)) {
        assert ps[i].val < ps[i];
        CanonicalKeepsCleansable(ps[i].val);
      }
    case _ =>
  }

  /** A string-keyed tree without reserved keys comes back unchanged. */
  lemma CleanseOfCanonicalTree(v: Value)
    requires StringKeyed(v) && Cleansable(v)
    ensures Cleanse(v) == Ok(v)
  {
    CleanseCorrect(v);
    CanonicalOfStringKeyed(v);
  }

  /** Cleansing a cleansed tree changes nothing. */
  lemma CleanseIdempotent(v: Value)
    requires Cleanse(v).Ok?
    ensures Cleanse(Cleanse(v).value) == Cleanse(v)
  {
    CleanseCorrect(v);
    CanonicalKeepsCleansable(v);
    CleanseOfCanonicalTree(Canonical(v));
  }

  /** On a list, `cleanse` works element by element: same length, same
      order, and one failing element fails the list with the
      non-string-key error, whatever the element's own error was. */
  lemma CleanseList(items: seq<Value>)
    ensures Cleanse(List(items)).Ok? <==> forall i :: 0 <= i < |items| ==> Cleanse(items[i]).Ok?
    ensures Cleanse(List(items)).Ok? ==>
      forall i :: 0 <= i < |items| ==> Cleanse(items[i]) == Ok(Cleanse(List(items)).value.items[i])
    ensures Cleanse(List(items)).Err? ==> Cleanse(List(items)).error == NonStringKey
  {
    CleanseCorrect(List(items));
    forall i | 0 <= i < |items|
      ensures Cleanse(items[i]).Ok? <==> Cleansable(items[i])
      ensures Cleanse(items[i]).Ok? ==> Cleanse(items[i]) == Ok(CanonicalItems(items)[i])
    {
      CleanseCorrect(items[i]);
    }
  }

  /** Keys of an any-keyed map are coerced first, so a reserved key that
      arrives as a coerced string is still rejected. */
  lemma CoercedReservedKeyRejected(ps: seq<Pair>, i: nat)
    requires i < |ps|
    requires forall j :: 0 <= j < |ps| ==> ps[j].key.Str?
    requires ps[i].key.s in ReservedKeys
    ensures Cleanse(AnyMap(ps)).Err?
  {
    CleanseCorrect(AnyMap(ps));
  }

  /** Coercion fails before any reserved-key check: an any-keyed map holding
      both `$ref` and a non-string key is reported as a non-string key,
      whatever the order of its bindings. */
  lemma CoercionFailsBeforeReservedKey()
    ensures Cleanse(StrMap([Entry("a", AnyMap([Pair(Str("$ref"), Null), Pair(Scalar(1), Null)]))])) == Err(NonStringKey)
    ensures Cleanse(StrMap([Entry("a", AnyMap([Pair(Scalar(1), Null), Pair(Str("$ref"), Null)]))])) == Err(NonStringKey)
  {
  }

  /** A reserved key inside a list element is reported as a non-string key. */
  lemma ReservedKeyInListMessage()
    ensures Cleanse(List([StrMap([Entry("$ref", Null)])])) == Err(NonStringKey)
    ensures Cleanse(StrMap([Entry("$ref", Null)])) == Err(ReservedKey("$ref"))
  {
  }
}

=== FILE: keypaths.dfy ===
/** The nested-path accessor `recurseMapOnKeys` of actions.go. */
module KeyPaths {
  import opened Tree
  import opened Cleansing

  /** The bindings a looked-up value offers for the next step of a path: a
      string-keyed map's own, an any-keyed map's once every key is a string,
      and none for anything else. */
  function Descend(v: Value): (r: Option<seq<Entry>>)
    ensures r.Some? <==> v.StrMap? || (v.AnyMap? && forall i :: 0 <= i < |v.pairs| ==> v.pairs[i].key.Str?)
    ensures v.StrMap? ==> r == Some(v.entries)
  {
    match v
    case StrMap(es) => Some(es)
    case AnyMap(ps) => CoerceKeys(ps)
    case _ => None
  }

  /** `recurseMapOnKeys`: follow `keys` through nested maps. A missing key
      or a value that is not a usable map yields `(nil, false)`. */
  function RecurseMapOnKeys(keys: seq<string>, params: seq<Entry>): (r: (Value, bool))
    requires |keys| > 0
    decreases |keys|
    ensures !r.1 ==> r.0 == Null
    ensures |keys| == 1 ==> r == (Get(params, keys[0]), HasKey(params, keys[0]))
    ensures |keys| > 1 && !HasKey(params, keys[0]) ==> r == (Null, false)
    ensures |keys| > 1 && Descend(Get(params, keys[0])).None? ==> r == (Null, false)
  {
    var key, rest := keys[0], keys[1..];
    var answer, ok := Get(params, key), HasKey(params, key);
    if |rest| == 0 then (answer, ok)
    else if !ok then (Null, false)
    else
      match Descend(answer)
      case None => (Null, false)
      case Some(m) => RecurseMapOnKeys(rest, m)
  }

  /** Following `k1 + k2` is following `k1`, then `k2` from the map found. */
  lemma {:induction false} RecurseMapOnKeysAppend(k1: seq<string>, k2: seq<string>, params: seq<Entry>)
    requires |k1| > 0 && |k2| > 0
    decreases |k1|
    ensures var (v, found) := RecurseMapOnKeys(k1, params);
      RecurseMapOnKeys(k1 + k2, params) ==
        if found && Descend(v).Some? then RecurseMapOnKeys(k2, Descend(v).value) else (Null, false)
  {
    var keys := k1 + k2;
    assert keys[0] == k1[0];
    if |k1| == 1 {
      assert keys[1..] == k2;
    } else {
      assert keys[1..] == k1[1..] + k2;
      var answer := Get(params, k1[0]);
      if HasKey(params, k1[0]) && Descend(answer).Some? {
        RecurseMapOnKeysAppend(k1[1..], k2, Descend(answer).value);
      }
    }
  }

  lemma {:induction false} GetCanonicalEntries(es: seq<Entry>, key: string)
    ensures HasKey(CanonicalEntries(es), key) == HasKey(es, key)
    ensures Get(CanonicalEntries(es), key) == Canonical(Get(es, key))
  {
    var ces := CanonicalEntries(es);
    if es != [] {
      assert ces[1..] == CanonicalEntries(es[1..]);
      GetCanonicalEntries(es[1..], key);
    }
  }

  /** Walking into a cleansable value and then cleansing is cleansing and
      then walking in. */
  lemma DescendCanonical(v: Value)
    requires Cleansable(v) && Descend(v).Some?
    ensures Descend(Canonical(v)) == Some(CanonicalEntries(Descend(v).value))
    ensures Cleansable(StrMap(Descend(v).value))
  {
    if v.AnyMap? {
      var ps, m := v.pairs, Descend(v).value;
      assert CanonicalEntries(m) == CanonicalPairs(ps) by {
        forall i | 0 <= i < |ps| ensures CanonicalEntries(m)[i] == CanonicalPairs(ps)[i] {
          assert m[i] == Entry(ps[i].key.s, ps[i].val);
        }
      }
      forall i | 0 <= i < |m| ensures m[i].key !in ReservedKeys && Cleansable(m[i].val) {
        assert m[i] == Entry(ps[i].key.s, ps[i].val);
      }
    }
  }

  /** Looking a path up in cleansed parameters finds the cleansed form of
      what the same path finds in the original ones. */
  lemma {:induction false} RecurseMapOnKeysCanonical(keys: seq<string>, params: seq<Entry>)
    requires |keys| > 0
    requires Cleansable(StrMap(params))
    decreases |keys|
    ensures var (v, found) := RecurseMapOnKeys(keys, params);
      RecurseMapOnKeys(keys, CanonicalEntries(params)) == (Canonical(v), found)
  {
    var key := keys[0];
    GetCanonicalEntries(params, key);
    var answer := Get(params, key);
    if |keys| > 1 && HasKey(params, key) {
      assert Cleansable(answer);
      if Descend(answer).Some? {
        DescendCanonical(answer);
        RecurseMapOnKeysCanonical(keys[1..], Descend(answer).value);
      } else {
        assert Descend(Canonical(answer)).None?;
      }
    }
  }

  /** The lookup in the accessor's own comment, and the two ways a path
      misses: an absent key and a value that is not a map. */
  lemma RecurseMapOnKeysExamples()
    ensures var inner := StrMap([Entry("c", Str("d"))]);
      RecurseMapOnKeys(["a", "b"], [Entry("a", StrMap([Entry("b", inner)]))]) == (inner, true)
    ensures RecurseMapOnKeys(["a", "x"], [Entry("a", StrMap([Entry("b", Scalar(1))]))]) == (Null, false)
    ensures RecurseMapOnKeys(["a", "b"], [Entry("a", Scalar(5))]) == (Null, false)
  {
  }
}

=== FILE: meta.dfy ===
/** The resource descriptor `Meta` of resource/meta.go: parsing it from the
    decoded metadata and checking its invariants. `ParseType` and
    `Type.Validate` live in a file that is not part of this model; they are
    the parameters `parseType` and `typeCheck` (the latter answers `None`
    for a valid type and the error text otherwise). */
module ResourceMeta {
  import opened Tree

  /** The resource `Type`. `TypeUnknown` is its zero value and `TypeFile`
      the one type this file names; `TypeOther` stands for any further value
      the type's own file may define. */
  datatype ResourceType = TypeUnknown | TypeFile | TypeOther(code: nat)

  /** `Meta`: name, type, storage path (the `filename` field) and comment. */
  datatype Meta = Meta(name: string, resourceType: ResourceType, path: string, comment: string)

  /** A field `ParseMeta` reads must be absent, nil or a string: anything
      else makes its type assertion panic. */
  predicate StringOrNil(es: seq<Entry>, key: string)
  {
    Get(es, key).Null? || Get(es, key).Str?
  }

  predicate ParsableData(data: Value)
  {
    data.Null? ||
    (data.StrMap? && StringOrNil(data.entries, "type") && StringOrNil(data.entries, "filename")
     && StringOrNil(data.entries, "comment"))
  }

  /** `ParseMeta`: the name always; then the type, the filename and the
      comment when the map holds them. */
  function ParseMeta(name: string, data: Value, parseType: string -> ResourceType): (m: Meta)
    requires ParsableData(data)
    ensures m.name == name
    ensures data.Null? ==> m == Meta(name, TypeUnknown, "", "")
    ensures data.StrMap? ==>
      && (Get(data.entries, "type").Null? ==> m.resourceType == TypeUnknown)
      && (Get(data.entries, "type").Str? ==> m.resourceType == parseType(Get(data.entries, "type").s))
      && (Get(data.entries, "filename").Null? ==> m.path == "")
      && (Get(data.entries, "filename").Str? ==> m.path == Get(data.entries, "filename").s)
      && (Get(data.entries, "comment").Null? ==> m.comment == "")
      && (Get(data.entries, "comment").Str? ==> m.comment == Get(data.entries, "comment").s)
  {
    if data.Null? then Meta(name, TypeUnknown, "", "")
    else
      var rMap := data.entries;
      var t := Get(rMap, "type");
      var f := Get(rMap, "filename");
      var c := Get(rMap, "comment");
      Meta(name,
           if t.Str? then parseType(t.s) else TypeUnknown,
           if f.Str? then f.s else "",
           if c.Str? then c.s else "")
  }

  /** The metadata map a descriptor is written as: its type by name
      (omitted while unknown), its filename and its comment. */
  function MetaData(m: Meta, typeName: ResourceType -> string): Value
  {
    StrMap([Entry("type", if m.resourceType == TypeUnknown then Null else Str(typeName(m.resourceType))),
            Entry("filename", Str(m.path)),
            Entry("comment", Str(m.comment))])
  }

  /** Parsing a descriptor's own metadata gives the descriptor back, when
      `parseType` reads back the names `typeName` gives. */
  lemma ParseMetaRoundTrip(m: Meta, typeName: ResourceType -> string, parseType: string -> ResourceType)
    requires forall t :: t != TypeUnknown ==> parseType(typeName(t)) == t
    ensures ParsableData(MetaData(m, typeName))
    ensures ParseMeta(m.name, MetaData(m, typeName), parseType) == m
  {
    var es := MetaData(m, typeName).entries;
    assert Get(es, "type") == es[0].val;
    assert Get(es, "filename") == Str(m.path) by { assert Get(es[1..], "filename") == Str(m.path); }
    assert Get(es, "comment") == Str(m.comment) by {
      assert Get(es[1..], "comment") == Get(es[2..], "comment") == Str(m.comment);
    }
  }

  // ---------------------------------------------------------------------
  // Validation.
  // ---------------------------------------------------------------------

  /** The failures `Validate` reports, all of the `NotValid` kind. */
  datatype MetaError =
    | MissingName
    | MissingType
    | InvalidType(resourceType: ResourceType, reason: string)
    | MissingFilename
    | SlashInFilename(path: string)

  /** The message of each failure; `typeText` is the type's `%v` text.
      Reference text only: the contracts speak of the error variants, and
      no member relies on these strings. */
  function ErrorMessage(e: MetaError, typeText: ResourceType -> string): string
  {
    match e
    case MissingName => "resource missing name"
    case MissingType => "resource missing type"
    case InvalidType(t, reason) => "invalid resource type " + typeText(t) + ": " + reason
    case MissingFilename => "resource missing filename"
    case SlashInFilename(p) => "filename cannot contain \"/\" (got \"" + p + "\")"
  }

  /** The invariants of a descriptor, in the order they are checked. */
  predicate Holds(m: Meta, typeCheck: ResourceType -> Option<string>, check: nat)
  {
    match check
    case 0 => m.name != ""
    case 1 => m.resourceType != TypeUnknown
    case 2 => typeCheck(m.resourceType).None?
    case 3 => m.path != ""
    case 4 => m.resourceType == TypeFile ==> '/' !in m.path
    case _ => true
  }

  const CheckCount: nat := 5

  /** The invariant each failure reports. */
  function CheckOf(e: MetaError): nat
  {
    match e
    case MissingName => 0
    case MissingType => 1
    case InvalidType(_, _) => 2
    case MissingFilename => 3
    case SlashInFilename(_) => 4
  }

  /** A valid descriptor: a name, a known and valid type, a filename, and a
      bare filename (no `/`) for a file resource. */
  predicate ValidMeta(m: Meta, typeCheck: ResourceType -> Option<string>)
  {
    && m.name != ""
    && m.resourceType != TypeUnknown
    && typeCheck(m.resourceType).None?
    && m.path != ""
    && (m.resourceType == TypeFile ==> '/' !in m.path)
  }

  /** `Meta.Validate`: the first invariant that fails, or nothing. */
  function Validate(m: Meta, typeCheck: ResourceType -> Option<string>): (r: Option<MetaError>)
    ensures r.None? <==> ValidMeta(m, typeCheck)
    ensures r.Some? ==> CheckOf(r.value) < CheckCount && !Holds(m, typeCheck, CheckOf(r.value))
    ensures r.Some? ==> forall i :: 0 <= i < CheckOf(r.value) ==> Holds(m, typeCheck, i)
    ensures m.name == "" ==> r == Some(MissingName)
    ensures m.name != "" && m.resourceType == TypeUnknown ==> r == Some(MissingType)
    ensures r == Some(MissingFilename) <==> ValidMetaUpToPath(m, typeCheck) && m.path == ""
    ensures r.Some? && r.value.InvalidType? ==> r.value == InvalidType(m.resourceType, typeCheck(m.resourceType).value)
    ensures r.Some? && r.value.SlashInFilename? ==> r.value.path == m.path
  {
    if m.name == "" then Some(MissingName)
    else if m.resourceType == TypeUnknown then Some(MissingType)
    else if typeCheck(m.resourceType).Some? then Some(InvalidType(m.resourceType, typeCheck(m.resourceType).value))
    else if m.path == "" then Some(MissingFilename)
    else if m.resourceType == TypeFile && '/' in m.path then Some(SlashInFilename(m.path))
    else None
  }

  /** Name and type are valid. */
  predicate ValidMetaUpToPath(m: Meta, typeCheck: ResourceType -> Option<string>)
  {
    m.name != "" && m.resourceType != TypeUnknown && typeCheck(m.resourceType).None?
  }

  /** All invariants hold exactly when the ordered checks all pass. */
  lemma ValidMetaIsAllChecks(m: Meta, typeCheck: ResourceType -> Option<string>)
    ensures ValidMeta(m, typeCheck) <==> forall i :: 0 <= i < CheckCount ==> Holds(m, typeCheck, i)
  {
    assert (&& Holds(m, typeCheck, 0) && Holds(m, typeCheck, 1) && Holds(m, typeCheck, 2)
            && Holds(m, typeCheck, 3) && Holds(m, typeCheck, 4))
        ==> ValidMeta(m, typeCheck);
  }

  /** A descriptor parsed from no data has only its name, so it is never
      valid. */
  lemma ParseMetaNilInvalid(name: string, parseType: string -> ResourceType, typeCheck: ResourceType -> Option<string>)
    ensures Validate(ParseMeta(name, Null, parseType), typeCheck)
      == Some(if name == "" then MissingName else MissingType)
  {
  }

  /** Sample descriptors: a missing name fails first, a file resource
      with a nested filename fails on the slash, and one with a bare
      filename is valid. */
  lemma ValidateExamples(parseType: string -> ResourceType, typeCheck: ResourceType -> Option<string>)
    requires parseType("file") == TypeFile
    requires typeCheck(TypeFile).None?
    ensures var data := StrMap([Entry("type", Str("file")), Entry("filename", Str("x"))]);
      Validate(ParseMeta("", data, parseType), typeCheck) == Some(MissingName)
    ensures var data := StrMap([Entry("type", Str("file")), Entry("filename", Str("a/b"))]);
      Validate(ParseMeta("eggs", data, parseType), typeCheck) == Some(SlashInFilename("a/b"))
    ensures var data := StrMap([Entry("type", Str("file")), Entry("filename", Str("eggs.tgz"))]);
      Validate(ParseMeta("eggs", data, parseType), typeCheck) == None
  {
    assert "a/b"[1] == '/';
    assert forall i :: 0 <= i < |"eggs.tgz"| ==> "eggs.tgz"[i] != '/';
  }
}

=== FILE: param_validation.dfy ===
/** `ActionSpec.ValidateParams` of actions.go: checking caller-supplied
    parameters against a built action schema. The JSON-Schema library is
    two parameters: `compile`, which answers `None` when the schema
    compiles and the library's error text otherwise, and `validate`, which
    gives the library's result for the parameters. */
module ParamValidation {
  import opened Tree
  import opened ActionSchemas

  /** The library's validation result: whether the instance is valid, and
      the text of each individual error, in the library's order. */
  datatype ValidationResult = ValidationResult(valid: bool, errors: seq<string>)

  const FailurePrefix: string := "JSON validation failed: "
  const Separator: string := "; "

  /** `strings.Join`: the parts, with `sep` between each two. */
  function Join(parts: seq<string>, sep: string): string
  {
    if |parts| == 0 then ""
    else if |parts| == 1 then parts[0]
    else parts[0] + sep + Join(parts[1..], sep)
  }

  /** Where the `i`-th part starts in the joined text. */
  function Offset(parts: seq<string>, sep: string, i: nat): nat
    requires i <= |parts|
  {
    if i == 0 then 0 else |parts[0]| + |sep| + Offset(parts[1..], sep, i - 1)
  }

  /** A slice of the second half of a concatenation, taken through the
      whole. */
  lemma SliceOfConcat(a: string, b: string, x: nat, y: nat)
    requires x <= y <= |b|
    ensures (a + b)[|a| + x..|a| + y] == b[x..y]
  {
    forall n | 0 <= n < y - x ensures (a + b)[|a| + x..|a| + y][n] == b[x..y][n] {
      assert (a + b)[|a| + x + n] == b[x + n];
    }
  }

  /** Each part appears, unchanged, at its offset. */
  lemma {:induction false} JoinHoldsPart(parts: seq<string>, sep: string, i: nat)
    requires i < |parts|
    ensures Offset(parts, sep, i) + |parts[i]| <= |Join(parts, sep)|
    ensures Join(parts, sep)[Offset(parts, sep, i)..Offset(parts, sep, i) + |parts[i]|] == parts[i]
  {
    if i > 0 {
      JoinHoldsPart(parts[1..], sep, i - 1);
      var head := parts[0] + sep;
      assert Join(parts, sep) == head + Join(parts[1..], sep);
      var o := Offset(parts[1..], sep, i - 1);
      SliceOfConcat(head, Join(parts[1..], sep), o, o + |parts[i]|);
    }
  }

  /** Between two neighbouring parts stands exactly the separator. */
  lemma {:induction false} JoinHoldsSeparator(parts: seq<string>, sep: string, i: nat)
    requires i + 1 < |parts|
    ensures Offset(parts, sep, i) + |parts[i]| + |sep| == Offset(parts, sep, i + 1)
    ensures Offset(parts, sep, i + 1) <= |Join(parts, sep)|
    ensures Join(parts, sep)[Offset(parts, sep, i) + |parts[i]|..Offset(parts, sep, i + 1)] == sep
  {
    if i > 0 {
      JoinHoldsSeparator(parts[1..], sep, i - 1);
      var head := parts[0] + sep;
      assert Join(parts, sep) == head + Join(parts[1..], sep);
      var o := Offset(parts[1..], sep, i - 1);
      SliceOfConcat(head, Join(parts[1..], sep), o + |parts[i]|, Offset(parts[1..], sep, i));
    } else {
      assert Join(parts, sep) == parts[0] + sep + Join(parts[1..], sep);
      assert Join(parts, sep)[|parts[0]|..|parts[0]| + |sep|] == sep;
    }
  }

  /** The joined text ends right after the last part: nothing is added. */
  lemma {:induction false} JoinLength(parts: seq<string>, sep: string)
    requires |parts| > 0
    ensures |Join(parts, sep)| == Offset(parts, sep, |parts| - 1) + |parts[|parts| - 1]|
  {
    if |parts| > 1 {
      var rest := parts[1..];
      JoinLength(rest, sep);
      assert |Join(parts, sep)| == |parts[0]| + |sep| + |Join(rest, sep)|;
      assert Offset(parts, sep, |parts| - 1) == |parts[0]| + |sep| + Offset(rest, sep, |rest| - 1);
      assert rest[|rest| - 1] == parts[|parts| - 1];
    }
  }

  /** `ValidateParams`: `(true, nil)` for valid parameters, the compile
      error unchanged when the schema does not compile, and otherwise
      `false` with every validation error joined after a fixed prefix. */
  method ValidateParams(
    spec: ActionSpec, params: Value,
    compile: SchemaDoc -> Option<string>,
    validate: (SchemaDoc, Value) -> ValidationResult)
    returns (ok: bool, err: Option<string>)
    ensures ok <==> compile(spec.params).None? && validate(spec.params, params).valid
    ensures ok <==> err.None?
    ensures compile(spec.params).Some? ==> err == compile(spec.params)
    ensures compile(spec.params).None? && !validate(spec.params, params).valid ==>
      err == Some(FailurePrefix + Join(validate(spec.params, params).errors, Separator))
  {
    var compileError := compile(spec.params);
    if compileError.Some? {
      return false, compileError;
    }

    var results := validate(spec.params, params);
    if results.valid {
      return true, None;
    }

    var errorStrings: seq<string> := [];
    var i := 0;
    while i < |results.errors|
      invariant 0 <= i <= |results.errors|
      invariant errorStrings == results.errors[..i]
    {
      errorStrings := errorStrings + [results.errors[i]];
      i := i + 1;
    }
    assert results.errors[..i] == results.errors;
    return false, Some(FailurePrefix + Join(errorStrings, Separator));
  }
}

=== FILE: tree.dfy ===
/** The generic decoded data tree that the YAML/JSON decoder hands to the
    charm metadata code, and the small vocabulary shared by the other modules. */
module Tree {

  datatype Option<T> = None | Some(value: T)

  datatype Result<T, E> = Ok(value: T) | Err(error: E)

  /** A decoded node. Go's `interface{}` values: `nil`, a string, any other
      scalar (numbers and booleans, kept opaque), a `[]interface{}`, a
      `map[string]interface{}` and a `map[interface{}]interface{}`.
      Maps are association lists in the decoder's (fixed) order. */
  datatype Value =
    | Null
    | Str(s: string)
    | Scalar(code: int)
    | List(items: seq<Value>)
    | StrMap(entries: seq<Entry>)
    | AnyMap(pairs: seq<Pair>)

  /** One binding of a `map[string]interface{}`. */
  datatype Entry = Entry(key: string, val: Value)

  /** One binding of a `map[interface{}]interface{}`. */
  datatype Pair = Pair(key: Value, val: Value)

  /** Whether a string-keyed association list binds `key`. */
  predicate HasKey(es: seq<Entry>, key: string)
  {
    es != [] && (es[0].key == key || HasKey(es[1..], key))
  }

  /** Go's `m[key]` on a `map[string]interface{}`: the bound value, or `nil`
      when the key is absent. The first binding wins; a Go map never holds
      two. */
  function Get(es: seq<Entry>, key: string): (v: Value)
    ensures !HasKey(es, key) ==> v == Null
    ensures HasKey(es, key) ==> exists i :: 0 <= i < |es| && es[i] == Entry(key, v)
  {
    if es == [] then Null
    else if es[0].key == key then es[0].val
    else
      var v := Get(es[1..], key);
      assert HasKey(es[1..], key) ==> exists i :: 0 <= i < |es| && es[i] == Entry(key, v) by {
        if HasKey(es[1..], key) {
          var j :| 0 <= j < |es| - 1 && es[1..][j] == Entry(key, v);
          assert es[j + 1] == Entry(key, v);
        }
      }
      v
  }

  /** A size measure that counts every node and every map entry; the
      `AnyMap` node counts one more than the `StrMap` its keys coerce to. */
  function Size(v: Value): nat
  {
    match v
    case List(items) => 1 + ItemsSize(items)
    case StrMap(es) => 1 + EntriesSize(es)
    case AnyMap(ps) => 2 + PairsSize(ps)
    case _ => 1
  }

  function ItemsSize(items: seq<Value>): nat
  {
    if items == [] then 0 else 1 + Size(items[0]) + ItemsSize(items[1..])
  }

  function EntriesSize(es: seq<Entry>): nat
  {
    if es == [] then 0 else 1 + Size(es[0].val) + EntriesSize(es[1..])
  }

  function PairsSize(ps: seq<Pair>): nat
  {
    if ps == [] then 0 else assert ps[0].val < ps[0]; 1 + Size(ps[0].val) + PairsSize(ps[1..])
  }
}
